=== FILE: README.md ===
# Scanner pass verification — a Dafny model

This project models the logic of the `Scanner` widget of ethpasskit
(`src/components/Scanner/Scanner.tsx`). The widget points a camera at the QR
code of a wallet pass and sends the decoded payload to the ethpass scan
endpoint. It then shows the endpoint's verdict in a dialog. The model covers:

- the `ScanResult` record and the choice among the four result views
  (ownership lost, expired, already scanned, verified), in priority order;
- the abbreviated contract address shown for each NFT that lost ownership,
  with JavaScript `String.prototype.slice` index rules (counting characters,
  see "Left out");
- the scan region given to the decoder: a centred square a third the size of
  the shorter side of the frame;
- the component state: the camera scanner instance, the dialog's visibility
  and label, and the stored result. Its transitions are mount/effect, Start,
  Stop, decode, response and reset.

Modules: `Js` (the JavaScript semantics used), `ScanResults` (data and the
invalid-NFT filter), `Address`, `Verdicts` (`renderScanResult`), `Region`
(`calculateScanRegion`) and `ScannerFlow` (the handlers).

Where the code's type declarations and its behaviour differ, the model follows the behaviour:

- Expiry is decided by the truthiness of `expiredAt`. An empty string counts
  as "not expired", and so does a missing value.
- `lastScannedAt` is declared a string, but the code only tests its
  truthiness, so the model also allows it to be missing.
- `expireAction` is optional, and a missing one is printed as `undefined`.

## Model

| member | source | states |
|---|---|---|
| Js.Truthy | src/components/Scanner/Scanner.tsx:156-180 | A possibly missing string is truthy iff it is present and non-empty, as the tests of `expiredAt` and `lastScannedAt` use it |
| Js.Min | src/components/Scanner/Scanner.tsx:52 | `Math.min` returns one of its arguments, and that argument is no larger than the other |
| Js.Interpolate | src/components/Scanner/Scanner.tsx:174 | A missing `expireAction` is shown as the text `undefined`; a present one is shown as itself |
| Js.Round | src/components/Scanner/Scanner.tsx:53-57 | `Math.round` returns the integer within half a unit of its argument, with halves going up |
| Js.RoundUnique | src/components/Scanner/Scanner.tsx:53-57 | That half-unit window determines the rounded value |
| Js.ClampIndex | src/components/Scanner/Scanner.tsx:144-146 | A negative `slice` index counts back from the end and stops at 0; an index past the end stops at the length |
| Js.Slice | src/components/Scanner/Scanner.tsx:144-146 | `slice(start, end)` is the run of characters between the normalised indices, or empty when they cross |
| Js.SliceFrom | src/components/Scanner/Scanner.tsx:144-146 | `slice(start)` runs from the normalised start to the end of the string |
| Js.SlicePrefix | src/components/Scanner/Scanner.tsx:144 | `slice(0, n)` is the first n characters, or the whole string when it is shorter |
| Js.SliceSuffix | src/components/Scanner/Scanner.tsx:144-146 | `slice(-n)` for n > 0 is the last n characters, or the whole string when it is shorter |
| ScanResults.InvalidNfts | src/components/Scanner/Scanner.tsx:118-121 | The filter keeps an NFT iff it is invalid; it is empty iff no NFT is invalid |
| ScanResults.InvalidNftsAppend | src/components/Scanner/Scanner.tsx:118-120 | The filter distributes over concatenation, so the invalid NFTs keep their original order |
| ScanResults.InvalidNftsExtremes | src/components/Scanner/Scanner.tsx:118-120 | An all-invalid list is kept whole; an all-valid list gives an empty one |
| Address.Abbreviate | src/components/Scanner/Scanner.tsx:144-146 | The result is the first up-to-6 characters, `...`, then the last up-to-4 characters, at most 13 characters long; from length 10 up, the halves are the true first 6 and last 4 |
| Address.AbbreviateEqualIff | src/components/Scanner/Scanner.tsx:144-146 | Two addresses of length ≥ 10 abbreviate alike iff they share their first 6 and last 4 characters |
| Address.AbbreviateShort | src/components/Scanner/Scanner.tsx:144-146 | An address of at most 4 characters appears on both sides of the ellipsis |
| Address.NftLine | src/components/Scanner/Scanner.tsx:142-148 | Each listed NFT's line is `NFT: `, then the abbreviated contract address, then `, Token ID: `, then the token id |
| Verdicts.Classify | src/components/Scanner/Scanner.tsx:115-226 | The verdict is InvalidOwnership iff some NFT is invalid, and it then lists exactly the invalid NFTs. Otherwise it is Expired iff `expiredAt` is truthy, carrying `expireAction`. Otherwise it is AlreadyScanned iff `lastScannedAt` is truthy, carrying that time. Otherwise it is Verified |
| Verdicts.ClassifyIsTheWarrantedVerdict | src/components/Scanner/Scanner.tsx:118-225 | Every result warrants exactly one verdict under the priority rules, and that verdict is the classification (both directions) |
| Verdicts.InvalidOwnershipDominates | src/components/Scanner/Scanner.tsx:118-154 | Once an NFT is invalid, no value of `expiredAt` or `lastScannedAt` changes the verdict |
| Verdicts.ExpiredDominatesScanned | src/components/Scanner/Scanner.tsx:156-180 | With all NFTs valid and a non-empty expiry, the verdict is Expired whatever `lastScannedAt` holds |
| Verdicts.Render | src/components/Scanner/Scanner.tsx:121-225 | The icon is red iff ownership was lost or the pass expired, and green iff the pass is fresh. The heading is "Error: Pass is Invalid" for lost ownership and "Error: Pass is Expired" for expiry. It is "Ownership Verified" iff the pass is valid, whether or not it was scanned before. The lost-ownership view opens with "Owner no longer holds following NFTs:". The lost-ownership view lists one line per invalid NFT, in order. The expired view's one line begins "Ownership is valid, however this pass has expired due to: " and ends with the reason. The already-scanned view's one line begins "Ownership is valid, however this pass was scanned " and ends with the earlier scan's time. The fresh view has no line under its heading |
| Verdicts.RescanNotShownAsFresh | src/components/Scanner/Scanner.tsx:156-203 | A pass whose NFTs are all valid, whose `expiredAt` is falsy and whose `lastScannedAt` is truthy is shown in yellow, never as a fresh verification. Its one line ends with the earlier scan's time |
| Region.SourceRegion | src/components/Scanner/Scanner.tsx:52-60 | The source's arithmetic with exact reals describes a square with a non-negative side |
| Region.ScanRegion | src/components/Scanner/Scanner.tsx:51-61 | The region is a square whose side is within one third of a pixel of min(w,h)/3. It lies inside the frame, with left and right (and top and bottom) margins equal or differing by one |
| Region.RoundThird | src/components/Scanner/Scanner.tsx:53 | `round(n/3)` equals `(n+1)/3` in integer division, for every integer n |
| Region.RoundHalf | src/components/Scanner/Scanner.tsx:56-57 | `round(m/2)` equals `(m+1)/2` in floored integer division, for every integer m |
| Region.ScanRegionMatchesSource | src/components/Scanner/Scanner.tsx:51-61 | The integer region equals the source's real-valued rounding arithmetic for every frame size |
| ScannerFlow.StepOfTitle | src/components/Scanner/Scanner.tsx:264-284 | A recognised dialog label reads back to the step that carries it |
| ScannerFlow.TitleRoundTrip | src/components/Scanner/Scanner.tsx:264-284 | Each step's label reads back to that step, so the four labels are distinct |
| ScannerFlow.RunEffect | src/components/Scanner/Scanner.tsx:39-69 | Without a video element the effect does nothing. Otherwise it installs a scanner that runs iff no result is stored, and leaves everything else as it was |
| ScannerFlow.Mount | src/components/Scanner/Scanner.tsx:39-67 | After mounting there is a scanner, running iff no result is stored; the dialog, label, result and request number are unchanged |
| ScannerFlow.Start | src/components/Scanner/Scanner.tsx:76-79 | Start does nothing without a scanner instance; otherwise it only sets the scanner running |
| ScannerFlow.Stop | src/components/Scanner/Scanner.tsx:71-74 | Stop does nothing without a scanner instance; otherwise it only stops the scanner |
| ScannerFlow.StartStopIdempotent | src/components/Scanner/Scanner.tsx:71-79 | Starting a running scanner and stopping a stopped one leave the state unchanged |
| ScannerFlow.Decode | src/components/Scanner/Scanner.tsx:44-46 | A decode stops the scanner, opens the dialog on "Verifying" (`scanPass` lines 90-92) and numbers a new request; the stored result is untouched |
| ScannerFlow.RespondAsWritten | src/components/Scanner/Scanner.tsx:103-112 | Status 200 with a parsed body stores the result, shows "Pass Status" and leaves a stopped scanner. Any other status, a parse failure or a network error shows "Pass Invalid" and keeps the stored result and camera. Dialog visibility never changes |
| ScannerFlow.Respond | src/components/Scanner/Scanner.tsx:103-112 | The corrected response handler behaves as written for the answer to the latest request while its "Verifying" dialog is open; any other response changes nothing |
| ScannerFlow.Reset | src/components/Scanner/Scanner.tsx:81-88 | Reset hides the dialog, clears the label and the result, and leaves any scanner running |
| ScannerFlow.InitialConsistent | src/components/Scanner/Scanner.tsx:33-37 | The initial state satisfies the consistency invariant |
| ScannerFlow.StepPreservesConsistent | src/components/Scanner/Scanner.tsx:39-112 | With the corrected response handler (see Findings), every event keeps the invariant. A scanner exists iff the video is mounted. The dialog is shown iff it has a label. A result is stored only while the dialog is shown. "Pass Status" always has a result |
| ScannerFlow.RunPreservesConsistent | src/components/Scanner/Scanner.tsx:39-112 | With the corrected response handler, every sequence of events keeps the invariant. The handlers as written do not keep it (`StaleResponseAsWritten`) |
| ScannerFlow.PanelOf | src/components/Scanner/Scanner.tsx:264-306 | A hidden dialog shows nothing. A shown dialog shows the spinner iff its label is "Verifying" and the generic invalid view iff it is "Pass Invalid". It shows the verdict on the stored result iff its label is "Pass Status" and a result is stored |
| ScannerFlow.DialogTitle | src/components/Scanner/Scanner.tsx:264 | The dialog shows a title iff it is open with a non-empty label, and the title reads back to the current step |
| ScannerFlow.PassStatusShowsVerdict | src/components/Scanner/Scanner.tsx:271-273 | In a consistent state, "Pass Status" renders the verdict on the stored result, never the missing-result branch |
| ScannerFlow.MountIsIdle | src/components/Scanner/Scanner.tsx:39-67 | After mounting, the widget is idle: dialog hidden, no result, camera scanning |
| ScannerFlow.ScanCycle | src/components/Scanner/Scanner.tsx:44-112 | From idle: a decode shows the spinner with the camera stopped. An accepted answer to that request shows the verdict; any other answer shows the generic invalid view. Closing the dialog returns to idle with the camera scanning |
| ScannerFlow.StaleResponseIgnored | src/components/Scanner/Scanner.tsx:103-112 | In the corrected handler, an answer to anything but the latest request changes nothing, and neither does an answer arriving while the dialog is closed |
| ScannerFlow.OverlappingScans | src/components/Scanner/Scanner.tsx:90-112 | In the corrected handler: scan A, close, then scan B. A's late answer is dropped whatever it is, and B's answer is applied to B's dialog as the source applies it |
| ScannerFlow.StaleResponseAsWritten | src/components/Scanner/Scanner.tsx:81-112 | As written, a 200 response arriving after the dialog was closed stores a result behind the hidden dialog and stops the camera |

## Left out

- The scan request (`fetch`, its URL, headers and API key) and JSON parsing. The `request` number in `State` has no counterpart in the source. Only the corrected response handler reads it (see Findings); the as-written handler ignores it. They appear only as an abstract `Response`: a status with a body that parsed or did not, or a network error.
- The `QrScanner` library, the camera and the `<video>` element. A decode is an event. Starting the camera is assumed to succeed, because a failed `start()` never reaches the component's state. Overlapping `start()` calls are not modelled.
- The 300 ms `setTimeout` in `reset`. Reset is one atomic step, so a response that lands inside that window is not modelled.
- `formatDate`, because it depends on `Date`, the locale and `navigator.language`. The already-scanned line keeps the raw timestamp.
- All markup, icons, styling and the dialog's transitions. `Render` keeps only the icon colour, the heading and the text lines.
- The `registrations` field of `ScanResult`, which is typed as an empty tuple and never read.
- A 200 response whose body is JSON `null`. Such a body would store no result; the model treats a parsed body as a `ScanResult`.
- Js.Interpolate: an `expireAction` that is JSON `null` would print `null`. The model does not distinguish it from a missing field.
- Address.Abbreviate: a Dafny `string` counts Unicode scalar values, while JavaScript's `slice` counts UTF-16 code units. A character outside the Basic Multilingual Plane therefore counts once here and twice in JavaScript, so the two can cut such a string at different places. This makes no difference for contract addresses, which are hexadecimal.
- Js.Slice: same caveat as above; indices are positions in the Dafny string, not UTF-16 code units.
- Js.Round: works on exact reals, not IEEE doubles. `(1/3) * n` is taken as exactly n/3. This cannot move a result, because n/3 is never within rounding error of a half.
- Unmounting the component and the effect's final cleanup.
- `src/components/Modal/Modal.tsx`, a presentational dialog. Its close control and outside-click both call `reset`, which appears here as the `Closed` event.
- The GeneratePass button, the provider wrapper, the Storybook stories and the build configuration. They hold no scanner logic.

## Findings

| source | as written | input that shows it | evidently intended | confidence | as-written member | corrected member |
|---|---|---|---|---|---|---|
| src/components/Scanner/Scanner.tsx:103-112 | The response is applied whatever the dialog shows by then. The dialog's close control works during "Verifying" and the request is not cancelled | Decode, close the dialog, then status 200 arrives. The result is stored while the dialog is hidden, and the effect replaces the running scanner with a stopped one | Only the answer to the latest request is applied, and only while its dialog is open. An answer for a dialog that has been closed is dropped, even after a new scan has begun, and the camera keeps scanning. The correction numbers each request; the source has no such number | medium, not executed | ScannerFlow.RespondAsWritten (ScannerFlow.StaleResponseAsWritten) | ScannerFlow.Respond (ScannerFlow.StaleResponseIgnored, ScannerFlow.OverlappingScans, ScannerFlow.RunPreservesConsistent) |

=== FILE: address.dfy ===
/**
 The short form in which the invalid-ownership view shows a contract
 address: `address.slice(0, 6) + "..." + address.slice(-4)`.
 */
module Address {
  import opened Js
  import opened ScanResults

  /** The abbreviated address: the first six characters, an ellipsis and the
      last four. A short address is not padded; its characters may appear in
      both halves. */
  function Abbreviate(address: string): (r: string)
    ensures r == address[..Min(6, |address|)] + "..." +
                 address[if |address| < 4 then 0 else |address| - 4..]
    ensures |r| == Min(6, |address|) + 3 + Min(4, |address|)
    ensures |r| <= 13
    ensures |address| >= 10 ==>
              && |r| == 13
              && r[..6] == address[..6]
              && r[6..9] == "..."
              && r[9..] == address[|address| - 4..]
  {
    SlicePrefix(address, 6);
    SliceSuffix(address, 4);
    Slice(address, 0, 6) + "..." + SliceFrom(address, -4)
  }

  /** Two addresses of at least ten characters get the same abbreviation
      exactly when they agree on their first six and last four characters:
      the middle is all that is lost. */
  lemma AbbreviateEqualIff(a: string, b: string)
    requires |a| >= 10 && |b| >= 10
    ensures Abbreviate(a) == Abbreviate(b) <==>
              a[..6] == b[..6] && a[|a| - 4..] == b[|b| - 4..]
  {
    var ra, rb := Abbreviate(a), Abbreviate(b);
    if ra == rb {
      assert a[..6] == ra[..6] == rb[..6] == b[..6];
      assert a[|a| - 4..] == ra[9..] == rb[9..] == b[|b| - 4..];
    }
  }

  /** An address of at most four characters appears on both sides of the
      ellipsis, e.g. `0x12` becomes `0x12...0x12`. */
  lemma AbbreviateShort(a: string)
    requires |a| <= 4
    ensures Abbreviate(a) == a + "..." + a
  {
  }

  /** The line the invalid-ownership view shows for one NFT. */
  function NftLine(nft: Nft): (line: string)
    ensures |line| == 5 + |Abbreviate(nft.contractAddress)| + 12 + |nft.tokenId|
    ensures line[..5] == "NFT: "
    ensures line[5..5 + |Abbreviate(nft.contractAddress)|] == Abbreviate(nft.contractAddress)
    ensures line[5 + |Abbreviate(nft.contractAddress)|..|line| - |nft.tokenId|] == ", Token ID: "
    ensures line[|line| - |nft.tokenId|..] == nft.tokenId
  {
    "NFT: " + Abbreviate(nft.contractAddress) + ", Token ID: " + nft.tokenId
  }
}

=== FILE: js.dfy ===
/**
 The few pieces of JavaScript semantics the scanner component relies on:
 optional (null/undefined) values and their truthiness, `Math.min`,
 `Math.round` and `String.prototype.slice`. Numbers are modelled as exact
 integers and reals rather than IEEE doubles.
 */
module Js {

  /** A value that may be null or undefined in the JavaScript source. */
  datatype Option<+T> = None | Some(value: T)

  /** JavaScript truthiness of a string that may be missing: `""`, `null`
      and `undefined` are falsy, every other string is truthy. */
  predicate Truthy(s: Option<string>)
    ensures Truthy(s) <==> s != None && s != Some("")
  {
    s.Some? && s.value != ""
  }

  /** The text a template literal produces for a possibly undefined string. */
  function Interpolate(s: Option<string>): (r: string)
    ensures s.Some? ==> r == s.value
    ensures s.None? ==> r == "undefined"
  {
    match s
    case Some(v) => v
    case None => "undefined"
  }

  /** `Math.min` on integers. */
  function Min(a: int, b: int): (r: int)
    ensures r <= a && r <= b
    ensures r == a || r == b
  {
    if a <= b then a else b
  }

  /** `Math.round`: the nearest integer, with halves rounded up (towards
      positive infinity, so that -2.5 rounds to -2). */
  function Round(x: real): (r: int)
    ensures r as real - 0.5 <= x < r as real + 0.5
  {
    (x + 0.5).Floor
  }

  /** Only one integer lies within half a unit of `x` (on the closed-open
      window `Round` uses), so the window determines `Round`. */
  lemma RoundUnique(x: real, k: int)
    requires k as real - 0.5 <= x < k as real + 0.5
    ensures Round(x) == k
  {
  }

  /** How `String.prototype.slice` turns a relative index into a position:
      a negative index counts back from the end (stopping at 0), and an index
      past the end stops at the end. */
  function ClampIndex(i: int, len: nat): (r: nat)
    ensures r <= len
    ensures 0 <= i ==> r == Min(i, len)
    ensures i < 0 ==> r == if len + i < 0 then 0 else len + i
  {
    if i < 0 then (if len + i < 0 then 0 else len + i)
    else if i > len then len
    else i
  }

  /** `s.slice(start, end)`: the characters from the normalised start up to
      (not including) the normalised end, or the empty string when the
      normalised start is not before the normalised end. */
  function Slice(s: string, start: int, end: int): (r: string)
    ensures |r| <= |s|
    ensures ClampIndex(start, |s|) < ClampIndex(end, |s|) ==>
              |r| == ClampIndex(end, |s|) - ClampIndex(start, |s|)
    ensures ClampIndex(start, |s|) >= ClampIndex(end, |s|) ==> r == ""
    ensures forall k :: 0 <= k < |r| ==> r[k] == s[ClampIndex(start, |s|) + k]
  {
    var from := ClampIndex(start, |s|);
    var to := ClampIndex(end, |s|);
    if from >= to then "" else s[from..to]
  }

  /** `s.slice(start)`: the end argument is undefined, which means the length. */
  function SliceFrom(s: string, start: int): (r: string)
    ensures |r| == |s| - ClampIndex(start, |s|)
    ensures forall k :: 0 <= k < |r| ==> r[k] == s[ClampIndex(start, |s|) + k]
  {
    Slice(s, start, |s|)
  }

  /** `s.slice(0, n)` for n >= 0 is the first n characters, or all of `s`. */
  lemma SlicePrefix(s: string, n: nat)
    ensures Slice(s, 0, n) == s[..Min(n, |s|)]
  {
  }

  /** `s.slice(-n)` for n > 0 is the last n characters, or all of `s`
      (for n = 0 it is `s.slice(0)`, the whole string). */
  lemma SliceSuffix(s: string, n: nat)
    requires n > 0
    ensures SliceFrom(s, -(n as int)) == s[if |s| < n then 0 else |s| - n..]
  {
    var r := SliceFrom(s, -(n as int));
    var t := s[if |s| < n then 0 else |s| - n..];
    assert ClampIndex(-(n as int), |s|) == if |s| < n then 0 else |s| - n;
    assert forall k :: 0 <= k < |r| ==> r[k] == t[k];
  }
}

=== FILE: region.dfy ===
/**
 The scan region handed to the QR decoder (`calculateScanRegion`): a square
 a third as wide as the shorter side of the video frame, centred in it.
 */
module Region {
  import opened Js

  /** A rectangle in video pixels: top-left corner and size. */
  datatype Rect = Rect(x: int, y: int, width: int, height: int)

  /** The source's arithmetic, read with exact reals in place of doubles:
      `round((1/3) * min(w, h))` for the side and `round((dim - side) / 2)`
      for each offset. */
  function SourceRegion(w: nat, h: nat): (r: Rect)
    ensures r.width == r.height && 0 <= r.width
  {
    var size := Round((1.0 / 3.0) * (Min(w, h) as real));
    Rect(Round((w - size) as real / 2.0), Round((h - size) as real / 2.0), size, size)
  }

  /** The same region computed with integer division only. */
  function ScanRegion(w: nat, h: nat): (r: Rect)
    ensures r.width == r.height
    ensures 3 * r.width - 1 <= Min(w, h) <= 3 * r.width + 1
    ensures 0 <= r.x && r.x + r.width <= w
    ensures 0 <= r.y && r.y + r.height <= h
    ensures r.x == w - r.width - r.x || r.x == w - r.width - r.x + 1
    ensures r.y == h - r.height - r.y || r.y == h - r.height - r.y + 1
  {
    var size := (Min(w, h) + 1) / 3;
    Rect((w - size + 1) / 2, (h - size + 1) / 2, size, size)
  }

  /** `round(n / 3)` is `(n + 1) / 3` in integer division: n / 3 is never
      exactly halfway between two integers. */
  lemma RoundThird(n: int)
    ensures Round((1.0 / 3.0) * (n as real)) == (n + 1) / 3
  {
  }

  /** `round(m / 2)` rounds halves up, which is `(m + 1) / 2` in (floored)
      integer division. */
  lemma RoundHalf(m: int)
    ensures Round(m as real / 2.0) == (m + 1) / 2
  {
  }

  /** The integer computation is exactly the source's rounding arithmetic. */
  lemma ScanRegionMatchesSource(w: nat, h: nat)
    ensures ScanRegion(w, h) == SourceRegion(w, h)
  {
    var size := (Min(w, h) + 1) / 3;
    RoundThird(Min(w, h));
    RoundHalf(w - size);
    RoundHalf(h - size);
  }
}

=== FILE: scan_result.dfy ===
/**
 The verification outcome the scan endpoint returns for a decoded pass
 (`ScanResult` in Scanner.tsx), and the selection of the NFTs whose
 ownership no longer holds.
 */
module ScanResults {
  import opened Js

  /** One NFT the pass is bound to, with the endpoint's verdict on whether
      the pass owner still holds it. */
  datatype Nft = Nft(
    contractAddress: string,
    contractInterface: string,
    tokenId: string,
    valid: bool)

  datatype Chain = Chain(name: string, network: string)

  /** The decoded JSON body of a successful scan request. `lastScannedAt`
      is declared a string but only its truthiness is ever tested, so a
      missing or null value is allowed for; `expiredAt` and `expireAction`
      are optional fields. */
  datatype ScanResult = ScanResult(
    id: string,
    message: string,
    ownerAddress: string,
    barcodeSignature: string,
    lastScannedAt: Option<string>,
    expiredAt: Option<string>,
    expireAction: Option<string>,
    nfts: seq<Nft>,
    chain: Chain)

  /** Some NFT of the list has lost its ownership check. */
  predicate HasInvalid(nfts: seq<Nft>)
  {
    exists i :: 0 <= i < |nfts| && !nfts[i].valid
  }

  /** `nfts.filter(nft => { if (!nft.valid) return nft })`: the callback
      returns the NFT object (always truthy) exactly when it is invalid, so
      the filter keeps the invalid NFTs in their original order. */
  function InvalidNfts(nfts: seq<Nft>): (r: seq<Nft>)
    ensures |r| <= |nfts|
    ensures forall n :: n in r <==> n in nfts && !n.valid
    ensures |r| == 0 <==> !HasInvalid(nfts)
  {
    if |nfts| == 0 then []
    else
      var rest := InvalidNfts(nfts[1..]);
      assert HasInvalid(nfts[1..]) ==> HasInvalid(nfts) by {
        if HasInvalid(nfts[1..]) {
          var i :| 0 <= i < |nfts[1..]| && !nfts[1..][i].valid;
          assert !nfts[i + 1].valid;
        }
      }
      if !nfts[0].valid then [nfts[0]] + rest else rest
  }

  /** The filter distributes over concatenation, which is what "in their
      original order" means: the invalid NFTs of a prefix come before those
      of the remainder. */
  lemma {:induction false} InvalidNftsAppend(a: seq<Nft>, b: seq<Nft>)
    ensures InvalidNfts(a + b) == InvalidNfts(a) + InvalidNfts(b)
  {
    if |a| == 0 {
      assert a + b == b;
    } else {
      assert (a + b)[1..] == a[1..] + b;
      InvalidNftsAppend(a[1..], b);
    }
  }

  /** A list of only invalid NFTs is kept whole, a list of only valid ones is
      dropped whole. */
  lemma {:induction false} InvalidNftsExtremes(nfts: seq<Nft>)
    ensures (forall i :: 0 <= i < |nfts| ==> !nfts[i].valid) ==> InvalidNfts(nfts) == nfts
    ensures (forall i :: 0 <= i < |nfts| ==> nfts[i].valid) ==> InvalidNfts(nfts) == []
  {
    if |nfts| > 0 {
      InvalidNftsExtremes(nfts[1..]);
      assert forall i :: 0 <= i < |nfts[1..]| ==> nfts[1..][i] == nfts[i + 1];
    }
  }
}

=== FILE: scanner_flow.dfy ===
/**
 The scanner component's state and how it changes: the camera scanner
 instance, the dialog (`isActive` and the `modal` label) and the last scan
 result. Each source handler is one transition function; the scan request
 itself is not modelled, only the response it yields.
 */
module ScannerFlow {
  import opened Js
  import opened ScanResults
  import opened Verdicts

  /** The `modal` label, which is also the dialog's title. */
  datatype ModalStep = Blank | Verifying | PassStatus | PassInvalid

  function Title(m: ModalStep): (t: string)
  {
    match m
    case Blank => ""
    case Verifying => "Verifying"
    case PassStatus => "Pass Status"
    case PassInvalid => "Pass Invalid"
  }

  /** Reads a label back; the dialog renders no body for any other string. */
  function StepOfTitle(t: string): (m: Option<ModalStep>)
    ensures m.Some? ==> Title(m.value) == t
  {
    if t == "" then Some(Blank)
    else if t == "Verifying" then Some(Verifying)
    else if t == "Pass Status" then Some(PassStatus)
    else if t == "Pass Invalid" then Some(PassInvalid)
    else None
  }

  /** The four labels are distinct, so the label names the step. */
  lemma TitleRoundTrip(m: ModalStep)
    ensures StepOfTitle(Title(m)) == Some(m)
  {
  }

  /** `scannerRef.current`: no instance before the effect has run, otherwise
      the latest instance, scanning or not. */
  datatype Camera = NoScanner | Scanner(running: bool)

  datatype State = State(
    videoMounted: bool,             // `videoRef.current` is set
    camera: Camera,
    scanResult: Option<ScanResult>,
    isActive: bool,                 // the dialog is shown
    modal: ModalStep,
    request: nat)                   // scan requests sent so far; numbers the latest one

  /** Before the first render is committed. */
  const Initial := State(false, NoScanner, None, false, Blank, 0)

  /** What the scan request yields: an HTTP status with a body that did or
      did not parse as a `ScanResult`, or a thrown network error. */
  datatype Response = Received(status: int, body: Option<ScanResult>) | NetworkError

  /** The response carries a result that gets stored. */
  predicate Accepted(resp: Response)
  {
    resp.Received? && resp.status == 200 && resp.body.Some?
  }

  /** The effect that runs after mounting and whenever `scanResult` changes:
      without a video element it does nothing; otherwise it replaces the
      scanner (the previous one is stopped by the cleanup) and starts the new
      one only when there is no result on display. */
  function RunEffect(st: State): (r: State)
    ensures r.(camera := st.camera) == st
    ensures !st.videoMounted ==> r == st
    ensures st.videoMounted ==> r.camera.Scanner? && (r.camera.running <==> st.scanResult.None?)
  {
    if !st.videoMounted then st
    else st.(camera := Scanner(st.scanResult.None?))
  }

  /** The first commit: the video element exists and the effect runs. */
  function Mount(st: State): (r: State)
    ensures r.videoMounted && r.camera.Scanner?
    ensures r.camera.running <==> st.scanResult.None?
    ensures r.(camera := st.camera) == st.(videoMounted := true)
  {
    RunEffect(st.(videoMounted := true))
  }

  /** The Start button, and `start()` inside `reset`. */
  function Start(st: State): (r: State)
    ensures st.camera.NoScanner? ==> r == st
    ensures st.camera.Scanner? ==> r == st.(camera := Scanner(true))
  {
    if st.camera.NoScanner? then st else st.(camera := Scanner(true))
  }

  /** The Stop button. */
  function Stop(st: State): (r: State)
    ensures st.camera.NoScanner? ==> r == st
    ensures st.camera.Scanner? ==> r == st.(camera := Scanner(false))
  {
    if st.camera.NoScanner? then st else st.(camera := Scanner(false))
  }

  /** Starting a started scanner and stopping a stopped one change nothing. */
  lemma StartStopIdempotent(st: State)
    ensures Start(Start(st)) == Start(st)
    ensures Stop(Stop(st)) == Stop(st)
    ensures st.camera == Scanner(true) ==> Start(st) == st
    ensures st.camera == Scanner(false) ==> Stop(st) == st
  {
  }

  /** The decode callback: it stops the scanner that fired, then `scanPass`
      opens the dialog on "Verifying" and sends a new request. */
  function Decode(st: State): (r: State)
    ensures r.isActive && r.modal == Verifying
    ensures r.camera.Scanner? <==> st.camera.Scanner?
    ensures r.camera.Scanner? ==> !r.camera.running
    ensures r.scanResult == st.scanResult && r.videoMounted == st.videoMounted
    ensures r.request == st.request + 1
  {
    Stop(st).(isActive := true, modal := Verifying, request := st.request + 1)
  }

  /** The end of `scanPass` as written: the response is applied whatever the
      dialog shows by then. Status 200 with a parsed body stores the result
      and shows "Pass Status" (storing a new result re-runs the effect);
      anything else, including a body that fails to parse, shows
      "Pass Invalid" and keeps the previous result. */
  function RespondAsWritten(st: State, resp: Response): (r: State)
    ensures r.isActive == st.isActive && r.videoMounted == st.videoMounted
    ensures r.request == st.request
    ensures Accepted(resp) ==>
              && r.scanResult == resp.body
              && r.modal == PassStatus
              && (st.videoMounted ==> r.camera == Scanner(false))
    ensures !Accepted(resp) ==>
              r.modal == PassInvalid && r.scanResult == st.scanResult && r.camera == st.camera
  {
    if Accepted(resp) then RunEffect(st.(scanResult := resp.body, modal := PassStatus))
    else st.(modal := PassInvalid)
  }

  /** The end of `scanPass` with stale responses dropped: the response to
      request number `tag` counts only if that is the latest request and its
      "Verifying" dialog is still open. */
  predicate Awaiting(st: State, tag: nat)
  {
    tag == st.request && st.isActive && st.modal == Verifying
  }

  function Respond(st: State, tag: nat, resp: Response): (r: State)
    ensures !Awaiting(st, tag) ==> r == st
    ensures Awaiting(st, tag) ==> r == RespondAsWritten(st, resp)
  {
    if Awaiting(st, tag) then RespondAsWritten(st, resp) else st
  }

  /** `reset`, from the dialog's close control or "Scan Another Pass", taken
      as one step: hide the dialog, clear the label and the result, start
      the current scanner; clearing a stored result re-runs the effect,
      which makes a fresh scanner and starts it. */
  function Reset(st: State): (r: State)
    ensures !r.isActive && r.modal == Blank && r.scanResult.None?
    ensures r.videoMounted == st.videoMounted && r.request == st.request
    ensures r.camera.Scanner? ==> r.camera.running
    ensures st.camera.Scanner? ==> r.camera.Scanner?
  {
    var cleared := Start(st.(isActive := false, modal := Blank, scanResult := None));
    if st.scanResult.Some? then RunEffect(cleared) else cleared
  }

  /** Whatever event reaches the component. */
  datatype Event =
    | MountEvent
    | DecodeEvent
    | ResponseEvent(tag: nat, resp: Response)   // the answer to request number `tag`
    | StartPressed
    | StopPressed
    | Closed

  function Step(st: State, e: Event): (r: State)
  {
    match e
    case MountEvent => Mount(st)
    case DecodeEvent => Decode(st)
    case ResponseEvent(tag, resp) => Respond(st, tag, resp)
    case StartPressed => Start(st)
    case StopPressed => Stop(st)
    case Closed => Reset(st)
  }

  function Run(st: State, events: seq<Event>): (r: State)
    decreases |events|
  {
    if |events| == 0 then st else Run(Step(st, events[0]), events[1..])
  }

  /** The dialog and the result agree: a scanner exists exactly once the
      video element is mounted; the dialog is shown exactly when it has a
      label; a result is only kept while the dialog is shown; and
      "Pass Status" always has a result to render. */
  predicate Consistent(st: State)
  {
    && (st.videoMounted <==> st.camera.Scanner?)
    && (st.isActive <==> st.modal != Blank)
    && (st.scanResult.Some? ==> st.isActive)
    && (st.modal == PassStatus ==> st.scanResult.Some?)
  }

  lemma InitialConsistent()
    ensures Consistent(Initial)
  {
  }

  /** Every event keeps the state consistent. */
  lemma StepPreservesConsistent(st: State, e: Event)
    requires Consistent(st)
    ensures Consistent(Step(st, e))
  {
  }

  /** So does every sequence of events. */
  lemma {:induction false} RunPreservesConsistent(st: State, events: seq<Event>)
    requires Consistent(st)
    ensures Consistent(Run(st, events))
    decreases |events|
  {
    if |events| > 0 {
      StepPreservesConsistent(st, events[0]);
      RunPreservesConsistent(Step(st, events[0]), events[1..]);
    }
  }

  /** What the dialog body shows. */
  datatype Panel = Nothing | Spinner | Outcome(view: View) | GenericInvalid

  function PanelOf(st: State): (p: Panel)
    ensures !st.isActive ==> p == Nothing
    ensures p == Spinner <==> st.isActive && st.modal == Verifying
    ensures p == GenericInvalid <==> st.isActive && st.modal == PassInvalid
    ensures p.Outcome? <==> st.isActive && st.modal == PassStatus && st.scanResult.Some?
    ensures p.Outcome? ==> p.view == Render(Classify(st.scanResult.value))
  {
    if !st.isActive then Nothing
    else match st.modal
      case Blank => Nothing
      case Verifying => Spinner
      case PassStatus =>
        (match st.scanResult
         case Some(res) => Outcome(Render(Classify(res)))
         case None => Nothing)
      case PassInvalid => GenericInvalid
  }

  /** The title the dialog shows: its label, rendered only when it is
      non-empty (`title && title`), and nothing while the dialog is hidden. */
  function DialogTitle(st: State): (t: Option<string>)
    ensures t.Some? <==> st.isActive && st.modal != Blank
    ensures t.Some? ==> t.value != "" && StepOfTitle(t.value) == Some(st.modal)
  {
    if st.isActive && Title(st.modal) != "" then Some(Title(st.modal)) else None
  }

  /** In a consistent state "Pass Status" always renders the verdict on the
      stored result, never the empty branch for a missing result. */
  lemma PassStatusShowsVerdict(st: State)
    requires Consistent(st) && st.isActive && st.modal == PassStatus
    ensures PanelOf(st) == Outcome(Render(Classify(st.scanResult.value)))
  {
  }

  /** Waiting for a scan: dialog hidden, nothing stored, camera scanning. */
  predicate Idle(st: State)
  {
    && Consistent(st)
    && !st.isActive
    && st.scanResult.None?
    && st.camera == Scanner(true)
  }

  /** Mounting starts the camera. */
  lemma MountIsIdle()
    ensures Idle(Mount(Initial))
  {
  }

  /** One full scan: a decode stops the camera and shows the spinner; an
      accepted response shows the verdict on the result with the camera
      still stopped, any other response shows the generic invalid view; and
      closing the dialog returns to waiting with the camera scanning. */
  lemma ScanCycle(st: State, resp: Response)
    requires Idle(st)
    ensures PanelOf(Decode(st)) == Spinner
    ensures Decode(st).camera == Scanner(false)
    ensures var d := Decode(st);
            Accepted(resp) ==>
              && PanelOf(Respond(d, d.request, resp)) == Outcome(Render(Classify(resp.body.value)))
              && Respond(d, d.request, resp).camera == Scanner(false)
    ensures var d := Decode(st);
            !Accepted(resp) ==> PanelOf(Respond(d, d.request, resp)) == GenericInvalid
    ensures var d := Decode(st); Idle(Reset(Respond(d, d.request, resp)))
  {
    var d := Decode(st);
    StepPreservesConsistent(st, DecodeEvent);
    StepPreservesConsistent(d, ResponseEvent(d.request, resp));
  }

  /** A response to any request but the latest, or one arriving once the
      dialog is closed, leaves the state as it is. */
  lemma StaleResponseIgnored(st: State, tag: nat, resp: Response)
    requires tag != st.request || !st.isActive
    ensures Respond(st, tag, resp) == st
  {
  }

  /** Scan pass A, close the dialog, scan pass B: A's late response is
      dropped whatever it is, and B's own response is applied to B's dialog. */
  lemma OverlappingScans(st: State, lateA: Response, respB: Response)
    requires Idle(st)
    ensures var a := Decode(st);
            var b := Decode(Reset(a));
            && Respond(b, a.request, lateA) == b
            && Respond(b, b.request, respB) == RespondAsWritten(b, respB)
  {
  }

  /** The handlers as written admit a stale response: close the dialog while
      "Verifying", then let status 200 arrive. The result is stored behind
      the hidden dialog and the effect replaces the running scanner with a
      stopped one, so the camera stops scanning with nothing on screen. */
  lemma StaleResponseAsWritten()
    ensures var res := ScanResult("", "", "", "", None, None, None, [], Chain("", ""));
            var closed := Reset(Decode(Mount(Initial)));
            var late := RespondAsWritten(closed, Received(200, Some(res)));
            && Idle(closed)
            && !late.isActive
            && late.scanResult == Some(res)
            && late.camera == Scanner(false)
            && !Consistent(late)
  {
  }
}

=== FILE: verdict.dfy ===
/**
 What the "Pass Status" dialog shows for a scan result (`renderScanResult`):
 one of four verdicts, chosen in a fixed priority order.
 */
module Verdicts {
  import opened Js
  import opened ScanResults
  import opened Address

  /** The four result views. */
  datatype Verdict =
    | InvalidOwnership(invalid: seq<Nft>)  // "Error: Pass is Invalid", listing the NFTs
    | Expired(reason: Option<string>)      // "Error: Pass is Expired", with `expireAction`
    | AlreadyScanned(scannedAt: string)    // "Ownership Verified", scanned before at this time
    | Verified                             // "Ownership Verified", first scan

  /** The decision made by `renderScanResult` for a non-null result. */
  function Classify(r: ScanResult): (v: Verdict)
    ensures v.InvalidOwnership? <==> HasInvalid(r.nfts)
    ensures v.InvalidOwnership? ==>
              forall n :: n in v.invalid <==> n in r.nfts && !n.valid
    ensures v.Expired? <==> !HasInvalid(r.nfts) && Truthy(r.expiredAt)
    ensures v.Expired? ==> v.reason == r.expireAction
    ensures v.AlreadyScanned? <==>
              !HasInvalid(r.nfts) && !Truthy(r.expiredAt) && Truthy(r.lastScannedAt)
    ensures v.AlreadyScanned? ==> Some(v.scannedAt) == r.lastScannedAt
    ensures v.Verified? <==>
              !HasInvalid(r.nfts) && !Truthy(r.expiredAt) && !Truthy(r.lastScannedAt)
  {
    var invalid := InvalidNfts(r.nfts);
    if |invalid| > 0 then InvalidOwnership(invalid)
    else if Truthy(r.expiredAt) then Expired(r.expireAction)
    else if Truthy(r.lastScannedAt) then AlreadyScanned(r.lastScannedAt.value)
    else Verified
  }

  /** The priority rules, each stated on its own: which verdict a result
      warrants, independently of how `Classify` tests them. */
  ghost predicate Warrants(r: ScanResult, v: Verdict)
  {
    var allValid := forall i :: 0 <= i < |r.nfts| ==> r.nfts[i].valid;
    match v
    case InvalidOwnership(listed) =>
      && !allValid
      && listed == InvalidNfts(r.nfts)
    case Expired(reason) =>
      && allValid
      && r.expiredAt.Some? && r.expiredAt.value != ""
      && reason == r.expireAction
    case AlreadyScanned(at) =>
      && allValid
      && (r.expiredAt.None? || r.expiredAt.value == "")
      && r.lastScannedAt == Some(at) && at != ""
    case Verified =>
      && allValid
      && (r.expiredAt.None? || r.expiredAt.value == "")
      && (r.lastScannedAt.None? || r.lastScannedAt.value == "")
  }

  /** Every result warrants exactly one verdict, and it is the one
      `Classify` picks: the views are exhaustive and mutually exclusive. */
  lemma ClassifyIsTheWarrantedVerdict(r: ScanResult, v: Verdict)
    ensures Warrants(r, v) <==> v == Classify(r)
  {
  }

  /** Lost ownership outranks everything: once an NFT is invalid, neither
      the expiry nor the last-scan time changes the verdict. */
  lemma InvalidOwnershipDominates(r: ScanResult, expiredAt: Option<string>, lastScannedAt: Option<string>)
    requires exists i :: 0 <= i < |r.nfts| && !r.nfts[i].valid
    ensures Classify(r.(expiredAt := expiredAt, lastScannedAt := lastScannedAt))
         == InvalidOwnership(InvalidNfts(r.nfts))
  {
  }

  /** Expiry outranks a previous scan. */
  lemma ExpiredDominatesScanned(r: ScanResult, lastScannedAt: Option<string>)
    requires forall i :: 0 <= i < |r.nfts| ==> r.nfts[i].valid
    requires r.expiredAt.Some? && r.expiredAt.value != ""
    ensures Classify(r.(lastScannedAt := lastScannedAt)) == Expired(r.expireAction)
  {
    assert !HasInvalid(r.nfts);
  }

  /** The colour of the view's icon. */
  datatype Tone = Red | Yellow | Green

  /** The icon colour and heading `renderScanResult` draws for a verdict,
      and the lines of text under the heading. An earlier scan's time is
      shown through a locale-dependent date format that is not modelled, so
      that line keeps the raw timestamp. */
  datatype View = View(tone: Tone, heading: string, lines: seq<string>)

  function Render(v: Verdict): (view: View)
    ensures view.tone == Red <==> v.InvalidOwnership? || v.Expired?
    ensures view.tone == Green <==> v.Verified?
    ensures view.heading == "Ownership Verified" <==> v.AlreadyScanned? || v.Verified?
    ensures v.Expired? ==> view.heading == "Error: Pass is Expired"
    ensures v.InvalidOwnership? ==> |view.lines| == 1 + |v.invalid|
    ensures v.InvalidOwnership? ==>
              && view.heading == "Error: Pass is Invalid"
              && view.lines[0] == "Owner no longer holds following NFTs:"
    ensures v.InvalidOwnership? ==>
              forall k :: 0 <= k < |v.invalid| ==> view.lines[k + 1] == NftLine(v.invalid[k])
    ensures v.Expired? ==>
              && |view.lines| == 1
              && |view.lines[0]| >= |Interpolate(v.reason)|
              && view.lines[0][|view.lines[0]| - |Interpolate(v.reason)|..] == Interpolate(v.reason)
    ensures v.AlreadyScanned? ==>
              && |view.lines| == 1
              && |view.lines[0]| >= |v.scannedAt|
              && view.lines[0][|view.lines[0]| - |v.scannedAt|..] == v.scannedAt
    ensures v.Expired? ==>
              "Ownership is valid, however this pass has expired due to: " <= view.lines[0]
    ensures v.AlreadyScanned? ==>
              "Ownership is valid, however this pass was scanned " <= view.lines[0]
    ensures v.Verified? ==> view.lines == []
  {
    match v
    case InvalidOwnership(nfts) =>
      View(Red, "Error: Pass is Invalid",
           ["Owner no longer holds following NFTs:"] + seq(|nfts|, k requires 0 <= k < |nfts| => NftLine(nfts[k])))
    case Expired(reason) =>
      View(Red, "Error: Pass is Expired",
           ["Ownership is valid, however this pass has expired due to: " + Interpolate(reason)])
    case AlreadyScanned(at) =>
      View(Yellow, "Ownership Verified", ["Ownership is valid, however this pass was scanned " + at])
    case Verified =>
      View(Green, "Ownership Verified", [])
  }

  /** A pass scanned before is never shown as a fresh verification: its view
      is yellow and its one line ends with the earlier scan's time. */
  lemma RescanNotShownAsFresh(r: ScanResult)
    requires forall i :: 0 <= i < |r.nfts| ==> r.nfts[i].valid
    requires !Truthy(r.expiredAt)
    requires Truthy(r.lastScannedAt)
    ensures Render(Classify(r)).tone == Yellow
    ensures var view := Render(Classify(r));
            var at := r.lastScannedAt.value;
            && |view.lines| == 1
            && |view.lines[0]| >= |at|
            && view.lines[0][|view.lines[0]| - |at|..] == at
  {
    assert !HasInvalid(r.nfts);
  }
}
